=== FILE: README.md ===
# Press: compressed-bundle delivery, modelled in Dafny

Press is a Play plugin that serves pre-built, minified JavaScript and CSS
bundles under an opaque cache key. This project models the plugin's
controller, `controllers.press.Press`. That controller makes one decision per
request, which the model writes as pure functions:

- **Miss.** When the key resolves to no bundle, the response is a text
  explanation in comment syntax. It names the file type ("JavaScript" or
  "CSS") and the configured key storage time. No header is set.
- **Browser-cache headers.** On a hit under the `Change` caching strategy,
  the response carries `Cache-Control: max-age=31536000` and an `Expires`
  date one year ahead. It also carries `P3P` when a P3P string is configured.
  `Always` and `Never` add none of these headers.
- **`Vary: Accept-Encoding`.** Every hit carries it.
- **Content negotiation.** The bundle is gzip-encoded when gzip is enabled
  and the client's `accept-encoding` header contains the substring `gzip`.
  The test is case-sensitive. Gzip also needs the compressor to succeed. A
  gzipped response sets `Content-Encoding: gzip` and a `Content-Length` equal
  to the compressed size. Otherwise, including when compression fails, the
  raw bundle is sent with neither header.
- **Administrative clear.** `clearJSCache` and `clearCSSCache` answer
  "forbidden" and do not call the request handler's `clearCache` unless
  clearing is enabled. When it is enabled, they call it and answer
  `Cleared N JS files from cache` (or `CSS`), where N is the count it
  returned.

Play ends an action by throwing from `renderBinary`, `renderText` or
`forbidden`. Here those calls become early returns of a `Response` or
`AdminResponse` value.

Files:

- `options.dfy`: module `Options`, the `Option` type that stands for Java's
  `null`.
- `text.dfy`: module `Text`. It holds Java's `String.indexOf`, checked
  against a substring predicate. It also holds the decimal text Java writes
  when an integer is concatenated to a string, with its parser and the
  round trip between them.
- `press.dfy`: module `Press`. It holds the configuration, the response
  types, the bad-response text, the cache-header policy, `Deliver`, the two
  request actions and the administrative clear.
- `press_properties.dfy`: module `PressProperties`. It holds lemmas that
  relate several calls.

## Model

| member | source | states |
|---|---|---|
| Text.IndexOf | app/controllers/press/Press.java:101 | Java's `indexOf`: -1 exactly when the pattern occurs nowhere; otherwise the first index where it occurs |
| Text.IndexOfFrom | app/controllers/press/Press.java:101 | the search from a start offset: -1 exactly when the pattern occurs at no index at or after the offset; otherwise the first such index |
| Text.NatToString | app/controllers/press/Press.java:105 | the decimal text Java writes for a size or count: non-empty, all digits, and a leading zero only for zero |
| Text.ParseNatToString | app/controllers/press/Press.java:105 | reading that decimal text back gives the original number |
| Press.BadResponseText | app/controllers/press/Press.java:133-144 | the miss explanation starts with `/*\n`, ends with `*/`, and contains the file type's name (`JavaScript` or `CSS`, the tags passed at lines 36 and 42) and the configured key storage time |
| Press.RenderBadResponse | app/controllers/press/Press.java:133-154 | a miss response sets no headers, and its body is explanation text in comment syntax (opening with `/*` and a newline, closing with `*/`) that names the file type and contains the key storage time |
| Press.CacheHeaders | app/controllers/press/Press.java:78-85 | `Cache-Control` and `Expires` are present exactly under `Change`, with the one-year max-age and the given date; `P3P` is present exactly under `Change` with a non-empty P3P string, and its value is that string; no other header is set |
| Press.Deliver | app/controllers/press/Press.java:45-113 | a miss gives exactly the bad response; a hit gives the cache headers under `Change` only, P3P only when configured, and always `Vary: Accept-Encoding`; the body is gzipped exactly when gzip is enabled, the header is present and contains `gzip`, and compression succeeds; in that case `Content-Encoding: gzip` is set, `Content-Length` is the compressed size, and the body is the compressor's output; otherwise the body is the raw bundle and neither header is set; a hit never sets a header outside the six named |
| Press.GzipRequested | app/controllers/press/Press.java:99-101 | the negotiation test holds exactly when gzip is enabled, the header is present, and its value contains `gzip` as a substring |
| Press.Lookup | app/controllers/press/Press.java:35-41 | the manager's lookup finds a bundle exactly when the key is among that type's bundles, and returns that bundle |
| Press.GetCompressed | app/controllers/press/Press.java:33-43 | the request for a key misses exactly when the unescaped key is absent among the bundles of its type, and a miss sets no headers and sends the explanation for the action's own tag (`JavaScript` at line 36, `CSS` at line 42); a hit always sets `Vary: Accept-Encoding`, is gzipped exactly when gzip is negotiated and the compressor succeeds on that bundle, and otherwise sends that bundle's bytes unchanged |
| Press.ClearedText | app/controllers/press/Press.java:121-130 | the clear message is `Cleared `, then a digit run that is exactly Java's decimal text of the count (no empty run, no leading zeros) and reads back as the count, then the type suffix |
| Press.ClearedSuffix | app/controllers/press/Press.java:121-130 | the suffix is a space (which ends the digits), the type's short name (`JS` at line 121, `CSS` at line 130), and ` files from cache` |
| Press.ClearStore | app/controllers/press/Press.java:120 | an assumed handler behaviour, not controller code (line 129 is the CSS call): it empties that type's bundles, returns how many there were, and leaves the other type's bundles alone |
| Press.ClearCache | app/controllers/press/Press.java:115-131 | when clearing is disabled: `Forbidden`, and the stores are unchanged; when enabled: the text `Cleared N JS/CSS files from cache` with N the count the handler returned, and the stores the handler left |
| PressProperties.MaxAgeIsOneYear | app/controllers/press/Press.java:80 | the `Cache-Control` value is the literal `max-age=31536000` |
| PressProperties.MissIgnoresNegotiation | app/controllers/press/Press.java:48-50 | on a miss, the strategy, P3P string, gzip flag, client header, clock and compressor have no effect; the body is the explanation for the file type and the key storage time |
| PressProperties.CompressorConsultedOnlyWhenNegotiated | app/controllers/press/Press.java:99-110 | unless gzip is enabled and the client header contains `gzip`, the compressor has no effect on the response |
| PressProperties.CompressionFailureFallsBack | app/controllers/press/Press.java:107-112 | when compression fails, the response equals the response with gzip disabled: the raw bundle with the same headers |
| PressProperties.ContentLengthIsCompressedSize | app/controllers/press/Press.java:105 | on the gzip path, `Content-Length` is all digits and reads back as the compressed body's length |
| PressProperties.GzipHeaderMatching | app/controllers/press/Press.java:97-101 | `gzip`, `x-gzip`, `deflate, gzip` and `gzip;q=0` select gzip; `GZIP`, `deflate` and a missing header do not |
| PressProperties.BadResponseTextInjective | app/controllers/press/Press.java:133-144 | the explanation determines both the file type and the key storage time |
| PressProperties.ClearedTextInjective | app/controllers/press/Press.java:121-130 | the clear message determines both the file type and the count |
| PressProperties.ClearedCountReadsBack | app/controllers/press/Press.java:120-121 | the clear message is `Cleared ` followed by a digit run and then the suffix naming the file type; the digit run is exactly Java's decimal text of the count the handler returned, and reads back as that count |
| PressProperties.ForbiddenClearIgnoresHandler | app/controllers/press/Press.java:115-120 | when clearing is disabled, the answer is `Forbidden` with the stores unchanged, whatever the handler would do |
| PressProperties.DropAllClearReportsStoreSize | app/controllers/press/Press.java:120-121 | under the assumed drop-all-and-count handler, the message reports the number of bundles of that type |
| PressProperties.ClearedKeysMiss | app/controllers/press/Press.java:115-131 | after an enabled clear whose handler empties that type's bundles, every key of that type gets the bad response |
| PressProperties.ClearSparesOtherRequests | app/controllers/press/Press.java:115-131 | a forbidden clear leaves every later request answered as before; an enabled clear does the same for any file type whose bundles the handler leaves alone |

## Left out

- Gzip compression (`press.io.Gzip`) is a parameter of type
  `Bytes -> GzipOutcome`: compressed bytes, or an I/O failure. The model makes
  no claim about the DEFLATE output. The buffered copy loop in `Gzip.gzip`
  only moves bytes.
- Stream handling is not modelled: the `mark`/`reset` of the bundle's input
  stream and the `UnexpectedException` when the reset fails. The bundle body
  is an immutable byte sequence. The model also ignores that a failed
  compression may already have consumed or closed the stream before the raw
  fallback.
- The clock and Joda formatting are not modelled. The formatted date "now
  plus one year" is the parameter `oneYearFromNow`, and `Expires` carries
  that parameter unchanged. The formatter prints local time followed by a
  literal `GMT`; that is not modelled either.
- `FileIO.unescape` is a parameter. `ScriptCompressedFileManager` and
  `StyleCompressedFileManager` are maps from unescaped key to bundle, one per
  file type.
- `ScriptRequestHandler.clearCache` and `StyleRequestHandler.clearCache`
  are not part of this model. `ClearCache` takes the handler as a parameter
  and reports whatever count it returns. The count is a `nat` here; the
  handler's Java `int`, including a negative value or overflow, is not
  modelled. Nothing in the controller ties the handler to the bundles that
  the lookup reads. `DropAllClearReportsStoreSize` assumes a handler that
  drops all bundles of its type and returns how many there were
  (`ClearStore`). `ClearedKeysMiss` and `ClearSparesOtherRequests` state
  what they need of the handler in their own `requires`.
- `PluginConfig` is the record `Config`. `compressionKeyStorageTime` is a
  string, because the controller only concatenates it.
- Play plumbing is not modelled: `flash.keep`, `Logger.error`, the exception
  mechanics of `renderBinary` and `forbidden`, status codes, and the headers
  Play itself adds when it renders a stream (such as its file-name handling).
- The UTF-8 encoding of the bad-response text and the unreachable
  `UnsupportedEncodingException` are not modelled. The body is a string.
- Putting bundles into the store, minting keys and expiring keys are done by
  the compiler and the file managers, not by this controller. None of them
  is part of this model.
- `Always` and `Never` set no browser-cache header at all. Lines 78-85 of
  `Press.java` are the only place such headers are set. Only the gzip path
  sets `Content-Length` (line 105). The raw fallback leaves the length to
  Play.

=== FILE: options.dfy ===
/** An optional value: the Java `null` the controller tests for, made explicit. */
module Options {
  datatype Option<+T> = None | Some(value: T)
}

=== FILE: press.dfy ===
/**
 The request-time delivery policy of the Press controller: how a compiled
 JavaScript or CSS bundle found under a cache key is turned into a response
 (browser-cache headers, `Vary`, optional gzip transport encoding), what is
 sent when the key resolves to nothing, and the guarded administrative
 cache clear.

 Play's "render ends the action" control flow becomes plain early returns:
 every operation is a pure function of the configuration, the lookup
 result and the request, and answers with a `Response` value.
 */
module Press {
  import opened Text
  import opened Options

  newtype byte = x: int | 0 <= x < 256

  type Bytes = seq<byte>

  /** Browser-caching policy, fixed for the life of the process. */
  datatype CachingStrategy = Always | Never | Change

  /** The two kinds of bundle the controller serves. */
  datatype FileType = JavaScript | CSS {
    /** The name used in the bad-response explanation. */
    function DisplayName(): string {
      match this
      case JavaScript => "JavaScript"
      case CSS => "CSS"
    }

    /** The name used in the administrative clear message. */
    function ShortName(): string {
      match this
      case JavaScript => "JS"
      case CSS => "CSS"
    }
  }

  /** The plugin configuration read by the controller. */
  datatype Config = Config(
    cache: CachingStrategy,
    p3pHeader: string,
    gzipEnabled: bool,
    cacheClearEnabled: bool,
    compressionKeyStorageTime: string)

  /** A compiled bundle: its file name and its (already minified) bytes. */
  datatype CompressedFile = CompressedFile(name: string, bytes: Bytes)

  /** The outcome of gzip-compressing a body: the compressed bytes, or an I/O failure. */
  datatype GzipOutcome = Compressed(bytes: Bytes) | IOFailure

  type Headers = map<string, string>

  /** What is sent: the explanation text of a miss, the raw bundle, or its gzip encoding. */
  datatype Body =
    | BadResponse(text: string)
    | Raw(name: string, bytes: Bytes)
    | Gzipped(name: string, bytes: Bytes)

  datatype Response = Response(headers: Headers, body: Body)

  /** Answer of the administrative clear actions. */
  datatype AdminResponse = Forbidden | Message(text: string)

  /** The bundles the script and style managers can resolve, by (unescaped) key. */
  datatype Stores = Stores(scripts: map<string, CompressedFile>, styles: map<string, CompressedFile>)

  const CacheControl := "Cache-Control"
  const Expires := "Expires"
  const P3P := "P3P"
  const Vary := "Vary"
  const ContentEncoding := "Content-Encoding"
  const ContentLength := "Content-Length"

  /** One year, in seconds: the `max-age` sent under the `Change` strategy. */
  const OneYearInSeconds: nat := 31536000

  /** The `Cache-Control` value sent under `Change`: Java's `"max-age=" + 31536000`. */
  const MaxAge := "max-age=" + NatToString(OneYearInSeconds)

  /** Every header name the delivery path may set. */
  const DeliveryHeaders := {CacheControl, Expires, P3P, Vary, ContentEncoding, ContentLength}

  // ---------------------------------------------------------------------------
  // Bad response

  /** The comment delimiters around the bad-response explanation. */
  const CommentOpen := "/*\n"
  const CommentClose := "*/"

  /** Text of the explanation before the file type. */
  const Intro := "The compressed "

  /** Text between the file type and the configured timeout: the first cause of a miss. */
  const FirstCause :=
    " file could not be generated.\n"
    + "This can occur in two situations:\n"
    + "1. The time between when the page was rendered by the "
    + "server and when the browser requested the compressed "
    + "file was greater than the timeout. (The timeout is "
    + "currently configured to be "

  /** Text after the configured timeout: the second cause of a miss. */
  const SecondCause :=
    ")\n"
    + "2. There was an exception thrown while rendering the "
    + "page.\n"

  /**
   The explanation sent when a key resolves to no bundle: a comment in the
   asset's own syntax that names the file type and the configured key
   storage time.
   */
  function BadResponseText(fileType: FileType, keyStorageTime: string): (r: string)
    ensures |r| >= 5 && r[..3] == "/*\n" && r[|r| - 2..] == "*/"
    ensures Contains(r, fileType.DisplayName())
    ensures Contains(r, keyStorageTime)
  {
    var name := fileType.DisplayName();
    var cause := FirstCause + keyStorageTime + SecondCause;
    var explanation := Intro + name + cause;
    var r := CommentOpen + explanation + CommentClose;
    ConcatenationEnds(CommentOpen, explanation, CommentClose);
    ContainsInMiddle(Intro, name, cause);
    ContainsWithin(CommentOpen, explanation, CommentClose, name);
    ContainsInMiddle(FirstCause, keyStorageTime, SecondCause);
    ContainsWithin(Intro + name, cause, "", keyStorageTime);
    assert Intro + name + cause + "" == explanation;
    ContainsWithin(CommentOpen, explanation, CommentClose, keyStorageTime);
    r
  }

  /** The whole response for a missing bundle: no headers, only the explanation. */
  function RenderBadResponse(cfg: Config, fileType: FileType): (r: Response)
    ensures r.headers == map[]
    ensures r.body.BadResponse?
    ensures |r.body.text| >= 5 && r.body.text[..3] == "/*\n" && r.body.text[|r.body.text| - 2..] == "*/"
    ensures Contains(r.body.text, fileType.DisplayName())
    ensures Contains(r.body.text, cfg.compressionKeyStorageTime)
  {
    Response(map[], BadResponse(BadResponseText(fileType, cfg.compressionKeyStorageTime)))
  }

  // ---------------------------------------------------------------------------
  // Cache headers and content negotiation

  /** Browser-cache headers for a hit: a year-long lifetime, and P3P when configured, only under `Change`. */
  function CacheHeaders(cfg: Config, oneYearFromNow: string): (h: Headers)
    ensures CacheControl in h <==> cfg.cache == Change
    ensures Expires in h <==> cfg.cache == Change
    ensures P3P in h <==> cfg.cache == Change && cfg.p3pHeader != ""
    ensures CacheControl in h ==> h[CacheControl] == MaxAge && h[Expires] == oneYearFromNow
    ensures P3P in h ==> h[P3P] == cfg.p3pHeader
    ensures h.Keys <= {CacheControl, Expires, P3P}
  {
    if cfg.cache == Change then
      var h := map[CacheControl := MaxAge, Expires := oneYearFromNow];
      if cfg.p3pHeader != "" then h[P3P := cfg.p3pHeader] else h
    else
      map[]
  }

  /** The client asked for gzip (a case-sensitive substring test on the header) and gzip is enabled. */
  predicate GzipRequested(cfg: Config, acceptEncoding: Option<string>)
    ensures GzipRequested(cfg, acceptEncoding) <==>
              cfg.gzipEnabled && acceptEncoding.Some? && Contains(acceptEncoding.value, "gzip")
  {
    cfg.gzipEnabled && acceptEncoding.Some? && IndexOf(acceptEncoding.value, "gzip") != -1
  }

  /**
   The response to a request for a bundle of type `fileType`, given what the
   lookup found. `oneYearFromNow` is the formatted HTTP date one year after
   the request; `gzip` is the compressor.
   */
  function Deliver(cfg: Config, fileType: FileType, lookup: Option<CompressedFile>,
                   acceptEncoding: Option<string>, oneYearFromNow: string,
                   gzip: Bytes -> GzipOutcome): (r: Response)
    // a miss: the explanation and nothing else
    ensures lookup.None? ==> r == RenderBadResponse(cfg, fileType)
    ensures r.body.BadResponse? <==> lookup.None?
    // a hit: browser-cache headers exactly under Change, P3P only when configured
    ensures lookup.Some? ==> (CacheControl in r.headers <==> cfg.cache == Change)
    ensures lookup.Some? ==> (Expires in r.headers <==> cfg.cache == Change)
    ensures lookup.Some? && cfg.cache == Change ==>
              r.headers[CacheControl] == MaxAge && r.headers[Expires] == oneYearFromNow
    ensures lookup.Some? ==> (P3P in r.headers <==> cfg.cache == Change && cfg.p3pHeader != "")
    ensures P3P in r.headers ==> r.headers[P3P] == cfg.p3pHeader
    // a hit always varies on Accept-Encoding
    ensures lookup.Some? ==> Vary in r.headers && r.headers[Vary] == "Accept-Encoding"
    // gzip exactly when enabled, asked for, and the compressor succeeds
    ensures r.body.Gzipped? <==>
              && lookup.Some?
              && cfg.gzipEnabled
              && acceptEncoding.Some?
              && Contains(acceptEncoding.value, "gzip")
              && gzip(lookup.value.bytes).Compressed?
    ensures r.body.Gzipped? ==>
              && r.body == Gzipped(lookup.value.name, gzip(lookup.value.bytes).bytes)
              && ContentEncoding in r.headers && r.headers[ContentEncoding] == "gzip"
              && ContentLength in r.headers && r.headers[ContentLength] == NatToString(|r.body.bytes|)
    // otherwise the bundle goes out untouched, without an encoding or a length
    ensures lookup.Some? && !r.body.Gzipped? ==>
              && r.body == Raw(lookup.value.name, lookup.value.bytes)
              && ContentEncoding !in r.headers && ContentLength !in r.headers
    ensures lookup.Some? ==> r.headers.Keys <= DeliveryHeaders
  {
    if lookup.None? then
      RenderBadResponse(cfg, fileType)
    else
      var file := lookup.value;
      var headers := CacheHeaders(cfg, oneYearFromNow)[Vary := "Accept-Encoding"];
      var raw := Response(headers, Raw(file.name, file.bytes));
      if GzipRequested(cfg, acceptEncoding) then
        match gzip(file.bytes)
        case Compressed(z) =>
          Response(headers[ContentEncoding := "gzip"][ContentLength := NatToString(|z|)], Gzipped(file.name, z))
        case IOFailure =>
          // the failure is logged and the raw body is sent instead
          raw
      else
        raw
  }

  // ---------------------------------------------------------------------------
  // Lookup and the two request actions

  /** The bundles of one type. */
  function StoreFor(stores: Stores, fileType: FileType): map<string, CompressedFile> {
    match fileType
    case JavaScript => stores.scripts
    case CSS => stores.styles
  }

  /** The manager's lookup of an unescaped key. */
  function Lookup(stores: Stores, fileType: FileType, key: string): (r: Option<CompressedFile>)
    ensures r.Some? <==> key in StoreFor(stores, fileType)
    ensures r.Some? ==> r.value == StoreFor(stores, fileType)[key]
  {
    if key in StoreFor(stores, fileType) then Some(StoreFor(stores, fileType)[key]) else None
  }

  /**
   The `getCompressedJS`/`getCompressedCSS` actions: unescape the key,
   resolve it among the bundles of that type, and deliver.
   */
  function GetCompressed(cfg: Config, fileType: FileType, stores: Stores, key: string,
                         unescape: string -> string, acceptEncoding: Option<string>,
                         oneYearFromNow: string, gzip: Bytes -> GzipOutcome): (r: Response)
    // a miss: no headers, and the explanation names the action's own file type
    ensures r.body.BadResponse? <==> unescape(key) !in StoreFor(stores, fileType)
    ensures r.body.BadResponse? ==> r == RenderBadResponse(cfg, fileType)
    // a hit always varies on Accept-Encoding, and is gzipped exactly when negotiated and compressible
    ensures !r.body.BadResponse? ==> Vary in r.headers && r.headers[Vary] == "Accept-Encoding"
    ensures r.body.Gzipped? <==>
              && unescape(key) in StoreFor(stores, fileType)
              && GzipRequested(cfg, acceptEncoding)
              && gzip(StoreFor(stores, fileType)[unescape(key)].bytes).Compressed?
    ensures r.body.Raw? ==> r.body.bytes == StoreFor(stores, fileType)[unescape(key)].bytes
    ensures r.body.Gzipped? ==>
              gzip(StoreFor(stores, fileType)[unescape(key)].bytes) == Compressed(r.body.bytes)
  {
    Deliver(cfg, fileType, Lookup(stores, fileType, unescape(key)), acceptEncoding, oneYearFromNow, gzip)
  }

  // ---------------------------------------------------------------------------
  // Administrative clear

  /**
   The text returned after clearing `count` bundles of type `fileType`:
   "Cleared ", then the count's digits, then the suffix naming the type.
   */
  function ClearedText(fileType: FileType, count: nat): (r: string)
    ensures |r| > 8 && r[..8] == "Cleared "
    ensures var rest := r[8..];
            var digits := LeadingDigits(rest);
            && rest[..digits] == NatToString(count)
            && AllDigits(rest[..digits])
            && ParseDigits(rest[..digits]) == count
            && rest[digits..] == ClearedSuffix(fileType)
  {
    var d, suffix := NatToString(count), ClearedSuffix(fileType);
    var r := "Cleared " + (d + suffix);
    var rest := r[8..];
    assert rest == d + suffix;
    LeadingDigitsOfRun(d, suffix);
    assert rest[..|d|] == d;
    assert rest[|d|..] == suffix;
    ParseNatToString(count);
    r
  }

  /**
   What follows the count in the clear message: a space, which ends the
   count's digits, the type's short name, and " files from cache".
   */
  function ClearedSuffix(fileType: FileType): (r: string)
    ensures |r| == |fileType.ShortName()| + 18
    ensures r[0] == ' ' && !IsDigit(r[0])
    ensures r[1..1 + |fileType.ShortName()|] == fileType.ShortName()
    ensures r[1 + |fileType.ShortName()|..] == " files from cache"
  {
    " " + fileType.ShortName() + " files from cache"
  }

  /**
   The drop-all-and-count behaviour assumed of the request handlers'
   `clearCache`: every bundle of that type is dropped, the number dropped is
   returned, and the other type's bundles stay.
   */
  function ClearStore(stores: Stores, fileType: FileType): (r: (nat, Stores))
    ensures r.0 == |StoreFor(stores, fileType)|
    ensures StoreFor(r.1, fileType) == map[]
    ensures forall t :: t != fileType ==> StoreFor(r.1, t) == StoreFor(stores, t)
  {
    match fileType
    case JavaScript => (|stores.scripts|, stores.(scripts := map[]))
    case CSS => (|stores.styles|, stores.(styles := map[]))
  }

  /**
   The `clearJSCache`/`clearCSSCache` actions. `clear` is the request
   handler's `clearCache` for `fileType`: the count it reports and the
   stores it leaves. Unless clearing is enabled the answer is forbidden and
   the handler is never called; otherwise the handler runs and its count is
   reported.
   */
  function ClearCache(cfg: Config, fileType: FileType, stores: Stores,
                      clear: Stores -> (nat, Stores)): (r: (AdminResponse, Stores))
    ensures !cfg.cacheClearEnabled ==> r.0 == Forbidden && r.1 == stores
    ensures cfg.cacheClearEnabled ==>
              && r.0 == Message(ClearedText(fileType, clear(stores).0))
              && r.1 == clear(stores).1
  {
    if !cfg.cacheClearEnabled then
      (Forbidden, stores)
    else
      var (count, cleared) := clear(stores);
      (Message(ClearedText(fileType, count)), cleared)
  }
}

=== FILE: press_properties.dfy ===
/**
 Properties relating several calls of the controller's operations: what a
 miss ignores, when the compressor is consulted, that the headers and texts
 the controller writes can be read back, and what the administrative clear
 does to later requests.
 */
module PressProperties {
  import opened Text
  import opened Options
  import opened Press

  /** The `Cache-Control` value is the literal one-year `max-age`. */
  lemma MaxAgeIsOneYear()
    ensures MaxAge == "max-age=31536000"
  {
  }

  /**
   On a miss only the file type and the configured key storage time matter:
   the caching strategy, P3P string, gzip flag, client header, clock and
   compressor are never consulted.
   */
  lemma MissIgnoresNegotiation(cfg1: Config, cfg2: Config, fileType: FileType,
                               accept1: Option<string>, accept2: Option<string>,
                               date1: string, date2: string,
                               gzip1: Bytes -> GzipOutcome, gzip2: Bytes -> GzipOutcome)
    requires cfg1.compressionKeyStorageTime == cfg2.compressionKeyStorageTime
    ensures Deliver(cfg1, fileType, None, accept1, date1, gzip1)
         == Deliver(cfg2, fileType, None, accept2, date2, gzip2)
    ensures Deliver(cfg1, fileType, None, accept1, date1, gzip1).body
         == BadResponse(BadResponseText(fileType, cfg1.compressionKeyStorageTime))
  {
  }

  /**
   The compressor is consulted only when gzip is enabled and the client's
   header contains "gzip": otherwise any two compressors give the same response.
   */
  lemma CompressorConsultedOnlyWhenNegotiated(cfg: Config, fileType: FileType, lookup: Option<CompressedFile>,
                                              accept: Option<string>, date: string,
                                              gzip1: Bytes -> GzipOutcome, gzip2: Bytes -> GzipOutcome)
    requires !(cfg.gzipEnabled && accept.Some? && Contains(accept.value, "gzip"))
    ensures Deliver(cfg, fileType, lookup, accept, date, gzip1) == Deliver(cfg, fileType, lookup, accept, date, gzip2)
  {
  }

  /** A compression failure degrades to the raw response, with exactly the headers of an unnegotiated hit. */
  lemma CompressionFailureFallsBack(cfg: Config, fileType: FileType, file: CompressedFile,
                                    accept: Option<string>, date: string, gzip: Bytes -> GzipOutcome)
    requires gzip(file.bytes) == IOFailure
    ensures Deliver(cfg, fileType, Some(file), accept, date, gzip)
         == Deliver(cfg.(gzipEnabled := false), fileType, Some(file), None, date, gzip)
    ensures Deliver(cfg, fileType, Some(file), accept, date, gzip).body == Raw(file.name, file.bytes)
  {
  }

  /** The `Content-Length` written on the gzip path reads back as the size of the compressed body. */
  lemma ContentLengthIsCompressedSize(cfg: Config, fileType: FileType, lookup: Option<CompressedFile>,
                                      accept: Option<string>, date: string, gzip: Bytes -> GzipOutcome)
    ensures var r := Deliver(cfg, fileType, lookup, accept, date, gzip);
            r.body.Gzipped? ==>
              && ContentLength in r.headers
              && AllDigits(r.headers[ContentLength])
              && ParseDigits(r.headers[ContentLength]) == |r.body.bytes|
  {
    var r := Deliver(cfg, fileType, lookup, accept, date, gzip);
    if r.body.Gzipped? {
      ParseNatToString(|r.body.bytes|);
    }
  }

  /**
   The header test is a case-sensitive substring match: "x-gzip" and even
   "gzip;q=0" (which refuses gzip in HTTP's own terms) select gzip, while
   "GZIP" and "deflate" do not.
   */
  lemma GzipHeaderMatching(cfg: Config, fileType: FileType, file: CompressedFile,
                           date: string, gzip: Bytes -> GzipOutcome)
    requires cfg.gzipEnabled && gzip(file.bytes).Compressed?
    ensures Deliver(cfg, fileType, Some(file), Some("gzip"), date, gzip).body.Gzipped?
    ensures Deliver(cfg, fileType, Some(file), Some("x-gzip"), date, gzip).body.Gzipped?
    ensures Deliver(cfg, fileType, Some(file), Some("deflate, gzip"), date, gzip).body.Gzipped?
    ensures Deliver(cfg, fileType, Some(file), Some("gzip;q=0"), date, gzip).body.Gzipped?
    ensures Deliver(cfg, fileType, Some(file), Some("GZIP"), date, gzip).body.Raw?
    ensures Deliver(cfg, fileType, Some(file), Some("deflate"), date, gzip).body.Raw?
    ensures Deliver(cfg, fileType, Some(file), None, date, gzip).body.Raw?
  {
    assert OccursAt("gzip", "gzip", 0);
    assert OccursAt("x-gzip", "gzip", 2);
    assert OccursAt("deflate, gzip", "gzip", 9);
    assert OccursAt("gzip;q=0", "gzip", 0);
    assert "GZIP"[0..4][0] != "gzip"[0];
    assert forall k :: !OccursAt("GZIP", "gzip", k);
    assert forall k :: 0 <= k < 4 ==> "deflate"[k] != 'g';
    assert forall k :: !OccursAt("deflate", "gzip", k);
  }

  /** The bad-response text determines both the file type and the configured key storage time. */
  lemma BadResponseTextInjective(t1: FileType, time1: string, t2: FileType, time2: string)
    requires BadResponseText(t1, time1) == BadResponseText(t2, time2)
    ensures t1 == t2 && time1 == time2
  {
    var cause1 := FirstCause + time1 + SecondCause;
    var cause2 := FirstCause + time2 + SecondCause;
    var explanation1 := Intro + t1.DisplayName() + cause1;
    var explanation2 := Intro + t2.DisplayName() + cause2;
    CancelEnds(CommentOpen, explanation1, explanation2, CommentClose);
    CharAfterPrefix(Intro, t1.DisplayName(), cause1);
    CharAfterPrefix(Intro, t2.DisplayName(), cause2);
    assert t1.DisplayName()[0] == t2.DisplayName()[0];
    assert t1 == t2;
    CancelPrefix(Intro + t1.DisplayName(), cause1, cause2);
    CancelEnds(FirstCause, time1, time2, SecondCause);
  }

  /** The clear message determines both the file type and the count it reports. */
  lemma ClearedTextInjective(t1: FileType, n1: nat, t2: FileType, n2: nat)
    requires ClearedText(t1, n1) == ClearedText(t2, n2)
    ensures t1 == t2 && n1 == n2
  {
  }

  /**
   Reading the clear message back: after "Cleared " comes a run of digits
   whose value is the count the handler returned, then the suffix naming the
   file type.
   */
  lemma ClearedCountReadsBack(cfg: Config, fileType: FileType, stores: Stores, clear: Stores -> (nat, Stores))
    requires cfg.cacheClearEnabled
    ensures var (answer, _) := ClearCache(cfg, fileType, stores, clear);
            && answer.Message?
            && |answer.text| > 8
            && answer.text[..8] == "Cleared "
            && var rest := answer.text[8..];
               var digits := LeadingDigits(rest);
               && rest[..digits] == NatToString(clear(stores).0)
               && AllDigits(rest[..digits])
               && ParseDigits(rest[..digits]) == clear(stores).0
               && rest[digits..] == ClearedSuffix(fileType)
  {
  }

  /** A forbidden clear does not depend on the handler: any two handlers give the same answer and stores. */
  lemma ForbiddenClearIgnoresHandler(cfg: Config, fileType: FileType, stores: Stores,
                                     clear1: Stores -> (nat, Stores), clear2: Stores -> (nat, Stores))
    requires !cfg.cacheClearEnabled
    ensures ClearCache(cfg, fileType, stores, clear1) == ClearCache(cfg, fileType, stores, clear2)
    ensures ClearCache(cfg, fileType, stores, clear1) == (Forbidden, stores)
  {
  }

  /**
   With the drop-all-and-count handler, an enabled clear reports the number
   of bundles of that type.
   */
  lemma DropAllClearReportsStoreSize(cfg: Config, fileType: FileType, stores: Stores)
    requires cfg.cacheClearEnabled
    ensures ClearCache(cfg, fileType, stores, s => ClearStore(s, fileType)).0
         == Message(ClearedText(fileType, |StoreFor(stores, fileType)|))
  {
  }

  /**
   After an enabled clear whose handler empties that type's bundles, every
   key of the cleared type misses, whatever the request.
   */
  lemma ClearedKeysMiss(cfg: Config, fileType: FileType, stores: Stores, clear: Stores -> (nat, Stores),
                        key: string, unescape: string -> string, accept: Option<string>, date: string,
                        gzip: Bytes -> GzipOutcome)
    requires cfg.cacheClearEnabled
    requires StoreFor(clear(stores).1, fileType) == map[]
    ensures var (_, after) := ClearCache(cfg, fileType, stores, clear);
            GetCompressed(cfg, fileType, after, key, unescape, accept, date, gzip).body
              == BadResponse(BadResponseText(fileType, cfg.compressionKeyStorageTime))
  {
  }

  /**
   A forbidden clear leaves every request answered as before, and so does an
   enabled clear for any file type whose bundles its handler leaves alone.
   */
  lemma ClearSparesOtherRequests(cfg: Config, cleared: FileType, requested: FileType, stores: Stores,
                                 clear: Stores -> (nat, Stores),
                                 key: string, unescape: string -> string, accept: Option<string>,
                                 date: string, gzip: Bytes -> GzipOutcome)
    requires !cfg.cacheClearEnabled || StoreFor(clear(stores).1, requested) == StoreFor(stores, requested)
    ensures var (_, after) := ClearCache(cfg, cleared, stores, clear);
            GetCompressed(cfg, requested, after, key, unescape, accept, date, gzip)
              == GetCompressed(cfg, requested, stores, key, unescape, accept, date, gzip)
  {
  }
}

=== FILE: text.dfy ===
/**
 String operations the controller relies on, stated over `seq<char>`:
 Java's `String.indexOf` (used to look for "gzip" in the client's
 Accept-Encoding header) and the decimal rendering Java applies when an
 integer is concatenated to a string (`"max-age=" + n`, `size + ""`,
 `"Cleared " + count`), together with its inverse.
 */
module Text {

  /** `pat` occurs in `s` starting at index `k`. */
  predicate OccursAt(s: string, pat: string, k: int) {
    0 <= k && k + |pat| <= |s| && s[k..k + |pat|] == pat
  }

  /** `pat` is a substring of `s`: the reference meaning of a successful `indexOf`. */
  ghost predicate Contains(s: string, pat: string) {
    exists k :: OccursAt(s, pat, k)
  }

  /** Java's `s.indexOf(pat, from)` for `0 <= from <= |s|`: the first occurrence at or after `from`, or -1. */
  function IndexOfFrom(s: string, pat: string, from: nat): (r: int)
    requires from <= |s|
    ensures r == -1 || (from <= r && OccursAt(s, pat, r))
    ensures r == -1 <==> forall k :: from <= k ==> !OccursAt(s, pat, k)
    ensures r != -1 ==> forall k :: from <= k < r ==> !OccursAt(s, pat, k)
    decreases |s| - from
  {
    if |s| < from + |pat| then -1
    else if s[from..from + |pat|] == pat then from
    else IndexOfFrom(s, pat, from + 1)
  }

  /** Java's `s.indexOf(pat)`: the first index at which `pat` occurs, or -1 when it does not occur. */
  function IndexOf(s: string, pat: string): (r: int)
    ensures -1 <= r
    ensures r == -1 <==> !Contains(s, pat)
    ensures r != -1 ==> OccursAt(s, pat, r) && forall k :: 0 <= k < r ==> !OccursAt(s, pat, k)
  {
    IndexOfFrom(s, pat, 0)
  }

  /** Whatever precedes and follows it, a string contains itself. */
  lemma ContainsInMiddle(a: string, b: string, c: string)
    ensures Contains(a + b + c, b)
  {
    var s := a + b + c;
    assert s[|a|..|a| + |b|] == b;
    assert OccursAt(s, b, |a|);
  }

  /** A string contains whatever its middle piece contains. */
  lemma ContainsWithin(a: string, b: string, c: string, pat: string)
    requires Contains(b, pat)
    ensures Contains(a + b + c, pat)
  {
    var k :| OccursAt(b, pat, k);
    var s := a + b + c;
    assert s[|a| + k..|a| + k + |pat|] == b[k..k + |pat|];
    assert OccursAt(s, pat, |a| + k);
  }

  /** The first and last pieces of a concatenation are its prefix and suffix. */
  lemma ConcatenationEnds(a: string, b: string, c: string)
    ensures (a + b + c)[..|a|] == a
    ensures (a + b + c)[|a + b|..] == c
  {
  }

  /** Equal strings with a common prefix and suffix agree on what lies between. */
  lemma CancelEnds(a: string, b1: string, b2: string, c: string)
    requires a + b1 + c == a + b2 + c
    ensures b1 == b2
  {
    var x := a + b1 + c;
    assert b1 == x[|a|..|a| + |b1|];
  }

  /** Equal strings with a common prefix agree on the rest. */
  lemma CancelPrefix(a: string, b1: string, b2: string)
    requires a + b1 == a + b2
    ensures b1 == b2
  {
    assert b1 == (a + b1)[|a|..];
  }

  /** The character right after the first piece is the first character of the second. */
  lemma CharAfterPrefix(a: string, b: string, c: string)
    requires |b| > 0
    ensures (a + b + c)[|a|] == b[0]
  {
  }

  predicate IsDigit(c: char) {
    '0' <= c <= '9'
  }

  predicate AllDigits(s: string) {
    forall i :: 0 <= i < |s| ==> IsDigit(s[i])
  }

  function DigitValue(c: char): (d: nat)
    requires IsDigit(c)
    ensures d < 10
  {
    c as int - '0' as int
  }

  function DigitChar(d: nat): (c: char)
    requires d < 10
    ensures IsDigit(c) && DigitValue(c) == d
  {
    ('0' as int + d) as char
  }

  /**
   The decimal text Java produces for a non-negative integer in a string
   concatenation: at least one digit, and a leading '0' only for zero.
   */
  function NatToString(n: nat): (s: string)
    ensures |s| >= 1
    ensures AllDigits(s)
    ensures s[0] == '0' <==> n == 0
    ensures |s| == 1 <==> n < 10
    ensures n == 0 ==> s == "0"
    decreases n
  {
    if n < 10 then [DigitChar(n)]
    else NatToString(n / 10) + [DigitChar(n % 10)]
  }

  /** The value of a string of decimal digits; the reader's side of `NatToString`. */
  function ParseDigits(s: string): nat
    requires AllDigits(s)
    decreases |s|
  {
    if |s| == 0 then 0
    else ParseDigits(s[..|s| - 1]) * 10 + DigitValue(s[|s| - 1])
  }

  /** The number of decimal digits at the start of `s`. */
  function LeadingDigits(s: string): (n: nat)
    ensures n <= |s|
    decreases |s|
  {
    if |s| == 0 || !IsDigit(s[0]) then 0 else 1 + LeadingDigits(s[1..])
  }

  /** A run of digits followed by a non-digit is exactly the leading digit run. */
  lemma {:induction false} LeadingDigitsOfRun(d: string, s: string)
    requires AllDigits(d)
    requires |s| > 0 && !IsDigit(s[0])
    ensures LeadingDigits(d + s) == |d|
    decreases |d|
  {
    if |d| > 0 {
      assert (d + s)[1..] == d[1..] + s;
      LeadingDigitsOfRun(d[1..], s);
    } else {
      assert d + s == s;
    }
  }

  /** Reading back the decimal text of `n` yields `n`. */
  lemma {:induction false} ParseNatToString(n: nat)
    ensures ParseDigits(NatToString(n)) == n
    decreases n
  {
    var s := NatToString(n);
    if n < 10 {
      assert s[..|s| - 1] == [];
    } else {
      assert s[..|s| - 1] == NatToString(n / 10);
      ParseNatToString(n / 10);
    }
  }
}
